=== FILE: README.md ===
# poop — a Dafny model of chained errors and their reporters

`poop` is a Go library for chains of errors. Each link in a chain records the call
frame where it was created: function, file and line. A link may also carry a message.
A link points to the next, earlier error. At the far end is either a terminal link
from `New`, or a "foreign" error that the library did not create. The library
provides three things:

- the chain itself (`chained_error.go`). This covers construction (`New`, `Newf`,
  `Chain`, `ChainWith`, `ChainWithf`), message resolution (`Error()`), iteration
  (`IterChain`), `RootCause` and `Flatten`. `Flatten` turns a chain into a single
  plain error whose text describes every link.
- the table reporter (`default_reporter.go`). It prints one row per link, in three
  aligned columns: function, `path:line` and message. The message column may be
  clipped to the terminal width. Two path formatters come with it:
  `PathLastNSegments` and `OmitImportPath`.
- the older reporter (`reporter.go`). It prints a " Fatal Error " banner, then one
  line per link, with every message starting at the same offset.

## How the model is built

- Go strings are byte sequences (`Bytes.Bytes = seq<byte>`), and lengths count
  bytes, as `len` does in Go. `Str` turns an ASCII literal into bytes.
- One generic datatype `Chains.Err<M>` stands for a chain. A link is
  `Node(frame, payload, next)`. A foreign error is the leaf `Foreign(text)`.
  - `chained_error.go` stores a message string in each link, where `""` means "no
    message". It uses `Err<Bytes>`.
  - The two reporters read an older link layout, `chainedError{current, next}`,
    where `current` is an optional error. They use `Err<Option<Bytes>>`, and a
    missing `current` is rendered as "↓".
- A nil `error` is `None`, for the functions that accept nil.
- Captured frames are parameters. Frame capture itself is not part of this model.
- The writer is a function `fault: nat -> Option<Bytes>`, where `fault(k)` is the
  error returned by the k-th write. `Output.Emit` is the reference meaning of
  "write these lines in order and stop at the first failure".
- Colouring is a record of four byte-string transformers, `Output.Styles`. Layout
  is proved for `Output.Plain`, where all four are the identity.
- The terminal width is a parameter: `None` when stdout is not a terminal,
  `Some(w)` otherwise.

Two facts about the code that a reader might not expect:

- `Flatten` writes the ten bytes `20 c3 a2 e2 80 a0 e2 80 99 20` between
  segments (chained_error.go:135). This is the arrow " → " encoded twice, which
  displays as " â†’ ". `ChainedError.FlattenSeparator` holds these bytes.
- Neither reporter merges rows. Each emits one row per element of `IterChain`,
  as `DefaultReporter.BuildRows` and `Reporter.BuildLines` state.

## Model

| member | source | states |
|---|---|---|
| Chains.UnwrapShortens | chained_error.go:30-32 | Only a link unwraps to an error; what it unwraps to has one link fewer and ends in a foreign error exactly when the link's chain does |
| Chains.Unwrap | chained_error.go:30-32 | A link unwraps to its `next` error, which is nil for a terminal link; a foreign error is a leaf and unwraps to nil. `UnwrapShortens` states what this step preserves |
| Chains.Walk | chained_error.go:110-123 | The walk starts at the error, each element unwraps to the following one, and the last unwraps to nil |
| Chains.WalkLength | chained_error.go:110-123 | The walk has one element per link, plus one if the chain ends in a foreign error |
| Chains.WalkForeignIsLast | chained_error.go:110-123 | A foreign error can only occur as the last element of the walk |
| Chains.IterChain | chained_error.go:110-123 | Iterating nil yields nil once; iterating an error yields the error, then each successive unwrap, as the walk |
| Chains.IterChainSteps | chained_error.go:110-123 | Each yielded element after the first is the non-nil unwrap of the one before, the last unwraps to nil, and the count is the links plus one for a foreign end |
| Chains.IterChainOfLink | chained_error.go:110-123 | A link's walk and iteration are the link, then the walk and iteration of its next error |
| Chains.UnwrapToEnd | chained_error.go:47-56 | Unwrapping until nil stops at the last element of the walk; starting from nil it returns nil |
| ChainedError.FirstStop | chained_error.go:18-26 | The index of the first element that ends the search (a link with a message, or a foreign error); no element before it stops |
| ChainedError.Error | chained_error.go:17-28 | Defined link by link: a link with a message answers it, a passthrough link asks its next error, a foreign error answers its own text. The requirement `Resolvable` is the panic when no link answers. `ErrorIsNearestMessage` relates it to the walk |
| ChainedError.ErrorIsNearestMessage | chained_error.go:17-28 | `Error()` returns without panicking exactly when some element of the walk carries a message or is foreign, and it returns the nearest such text |
| ChainedError.New | chained_error.go:70-73 | A terminal link with the given frame and message; its `Error()` is the message; an empty message leaves nothing to resolve (the panic) |
| ChainedError.Newf | chained_error.go:75-78 | As `New`, for the already-formatted message |
| ChainedError.Chain | chained_error.go:80-88 | Nil in gives nil out; otherwise a passthrough link with the frame whose unwrap is the argument |
| ChainedError.ChainPrependsToIteration | chained_error.go:82-96 | `Chain` and `ChainWith` over a non-nil error, with or without a message, put exactly the new link in front of what `IterChain` yields for that error |
| ChainedError.ChainKeepsError | chained_error.go:17-28 | A passthrough link resolves exactly when the chain under it does, to the same text |
| ChainedError.ChainWith | chained_error.go:90-96 | Nil gives nil; otherwise a link over the argument carrying the message, which then becomes its `Error()` when non-empty |
| ChainedError.ChainWithf | chained_error.go:98-104 | As `ChainWith`, for the already-formatted message |
| ChainedError.RootCause | chained_error.go:46-56 | As written, the loop starts from an unset local variable rather than the receiver, so the result is always nil |
| ChainedError.RootCauseIntended | chained_error.go:46-56 | Starting from the receiver: the last element of the walk and of `IterChain`, which unwraps to nil and is foreign exactly when the chain ends in a foreign error |
| ChainedError.EndsForeignAtLast | chained_error.go:46-56 | A chain ends in a foreign error exactly when the last element of its walk is foreign |
| ChainedError.RootCauseIgnoresReceiver | chained_error.go:46-56 | For a single `New` link the intended root cause is that link, while the as-written one is not |
| ChainedError.SegmentShape | chained_error.go:137-145 | A link's segment is `Location` of its function name, its file cut to the last two segments, its line in decimal and " message" if it has a message, nothing otherwise. It opens with the function name and "(" and ends with " message", or with ")" when the message is empty. A foreign error contributes its text |
| ChainedError.LocationParts | chained_error.go:139 | `fn(path:line)` followed by a tail reads back piece by piece: the function name, "(", the path, ":", the line digits, ")", then the tail, each at its own offset |
| ChainedError.LocationEnds | chained_error.go:139-142 | A location followed by the message suffix opens with the function name and "(" and ends with a space and the message, or with ")" when the message is empty |
| ChainedError.OnlyLastSegmentMayBeEmpty | chained_error.go:133-136 | Every segment except the last is non-empty, so the buffer-length test puts a separator exactly between consecutive segments |
| ChainedError.Segment | chained_error.go:137-145 | A link's segment is longer than its function name, since it always holds the parenthesised location. `SegmentShape` gives it as a `Location`, and `LocationParts` reads the path, line and message back from it. `Bytes.DecimalRoundTrip` reads the line digits back as the line number |
| ChainedError.Flatten | chained_error.go:129-149 | The result is a plain (foreign) error with nothing beneath it, whose text is the segments of the walk joined by the separator |
| ChainedError.FlattenPrepends | chained_error.go:129-149 | Flattening a link over a chain gives the link's segment, the separator, then the flattening of the chain |
| ChainedError.FlattenLength | chained_error.go:129-149 | The flattened length is the sum of the segment lengths plus one separator per pair of consecutive elements |
| Bytes.WriteJoined | chained_error.go:132-146 | The buffer loop (a separator before every segment once the buffer is non-empty) builds the join of the segments |
| Bytes.JoinLength | chained_error.go:132-146 | A join has the summed length of its parts plus one separator between each pair |
| Bytes.Decimal | default_reporter.go:119 | The decimal rendering of a line number is non-empty, all digits, with no leading zero unless the number is 0 |
| Bytes.DecimalRoundTrip | default_reporter.go:119 | The decimal rendering of a line number reads back as the same number |
| Bytes.LastIndex | default_reporter.go:37 | -1 exactly when the byte is absent; otherwise the position of its last occurrence |
| Paths.StripSegments | default_reporter.go:35-42 | Cutting at the last slash up to n times leaves a prefix with min(n, slashes) fewer slashes, followed in the path by a slash when anything was cut |
| Paths.PathLastNSegments | default_reporter.go:30-48 | "" becomes "??"; otherwise the result is a suffix of the path, the whole path when n <= 0 or no slash is cut, and otherwise the part after a slash that holds min(n, slashes) - 1 slashes |
| Paths.PathLastNSegmentsFewerSlashes | default_reporter.go:30-48 | A non-empty path keeps fewer than n slashes after formatting, when n > 0 |
| Paths.OmitImportPath | default_reporter.go:50-56 | The result is the suffix after the last slash, holds no slash, and is the whole name when there is none |
| Paths.OmitImportPathIdempotent | default_reporter.go:50-56 | Applying `OmitImportPath` twice is the same as once |
| DefaultReporter.BuildRows | default_reporter.go:104-130 | One row per element of `IterChain`, in order, each row built from its element alone |
| DefaultReporter.RowOf | default_reporter.go:107-128 | The row of one element: for a link the formatted function, formatted path, decimal line and message or "↓"; for a foreign error an empty function and line, the formatted empty path, and its text. `RowContents` states it per row of a chain |
| DefaultReporter.RowContents | default_reporter.go:106-130 | A link's row has the formatted function and path, the decimal line, and the message or "↓"; a foreign error's row has empty function and line, the formatted empty path, and its text |
| DefaultReporter.HasFrame | default_reporter.go:161-163 | A row counts as framed when its path is non-empty |
| DefaultReporter.FramedExactlyWhenPathShown | default_reporter.go:115-128 | A row of a chain is framed exactly when its formatter returned a non-empty path: for a link, the formatter applied to its file; for the foreign end, the formatter applied to "" |
| DefaultReporter.MaxWidths | default_reporter.go:136-140 | Every row fits its column widths, each width is attained by some row, and all are zero without rows |
| DefaultReporter.Clip | default_reporter.go:142-149 | Only the message column changes; it becomes width - func - pathLine - 2 exactly when a terminal width is known and that exceeds 10 |
| DefaultReporter.BuildTable | default_reporter.go:104-152 | The table holds the rows of the chain and their clipped maximum widths, and every framed row fits its first two columns |
| DefaultReporter.Truncate | default_reporter.go:72-75 | A message longer than the column keeps its first column-width bytes followed by "..."; a shorter one is unchanged |
| DefaultReporter.RenderRow | default_reporter.go:72-98 | Every rendered row holds at least its two column separators and ends with a newline; `FramedRowLayout` and `BlankRowLayout` give its layout |
| DefaultReporter.FramedRowLayout | default_reporter.go:86-97 | A framed row is the function padded to column 0, a space, `path:line` padded to column 1, a space, the truncated message, a newline |
| DefaultReporter.BlankRowLayout | default_reporter.go:76-85 | A frameless row is blank through both columns, then the truncated message and a newline |
| DefaultReporter.MessageColumnAligned | default_reporter.go:71-99 | In every rendered row the message starts at byte cols[0] + cols[1] + 2 |
| DefaultReporter.Render | default_reporter.go:63-102 | The rows are written in order, stopping at the first failed write and returning its error; with no failure, every row is written |
| DefaultReporter.Report | default_reporter.go:165-177 | Reporting renders the built table under the given styles with the same stop-at-first-error semantics |
| DefaultReporter.DefaultPathFormatter | default_reporter.go:21 | The default path formatter maps "" to "??" and any other path to a suffix of it holding at most one slash |
| DefaultReporter.DefaultForeignRowHasFrame | default_reporter.go:21 | Under the default formatters a foreign error's path is "??", so its row is treated as framed |
| Output.Emit | default_reporter.go:76-98 | The written lines are a prefix of the input, all earlier writes succeeded, the error is nil exactly when every line was written, and otherwise it is the failing write's error |
| Output.WriteAll | reporter.go:130-134 | The write loop computes `Emit` |
| Reporter.PathLastNSegments | reporter.go:25-43 | The reporter's own copy of the loop computes the same path as `Paths.PathLastNSegments`, a suffix of any non-empty path |
| Reporter.BuildLines | reporter.go:87-113 | One line per element of `IterChain`, each built from its element alone |
| Reporter.LineOf | reporter.go:89-111 | The line of one element: for a link the raw function name, formatted path, decimal line and message or "↓"; for a foreign error an empty function and line, the formatted empty path, and its text |
| Reporter.LineContents | reporter.go:88-113 | A link's line has the raw function name, the formatted path, the decimal line and the message or "↓"; a foreign error's has an empty line number and its text |
| Reporter.PathWidth | reporter.go:52-54 | The bytes a numbered line uses before its message when unpadded: function, path and number plus their three separators. `RenderLineLayout` puts the message at this offset when there is no padding |
| Reporter.Offset | reporter.go:115-118 | The offset is at least every line's path width and equals one of them; 0 without lines |
| Reporter.MaxPathWidth | reporter.go:115-118 | The loop computes that offset |
| Reporter.RenderLineLayout | reporter.go:56-80 | Under plain styling, a numbered line reads the function name, a space, the path, ":", the line and then spaces up to byte `offset`, where its message starts. A line with no number reads the path, then spaces, and puts its message at `offset - 1 - |function|`, which is `offset - 1` for the foreign line |
| Reporter.NumberedParts | reporter.go:71-78 | `f + " " + p + ":" + n + pad + " " + m`, for a padding of spaces, reads back as f, p, n and m at their offsets, with spaces from the end of n up to m |
| Reporter.UnnumberedParts | reporter.go:63-68 | `p + pad + "  " + m`, for a padding of spaces, reads back as p, spaces, then m |
| Reporter.RenderLine | reporter.go:56-80 | A numbered line is `func path:line`, padding and a space, then the message. A line with no number is the path, padding and two spaces, then the message. `RenderLineLayout` states where each piece lands |
| Reporter.ReportLines | reporter.go:120-134 | The output is the " Fatal Error " banner line followed by one line per element of `IterChain`; `WrittenLine` says which line each one is |
| Reporter.WrittenLine | reporter.go:114-134 | The line written after the banner and `i` earlier lines is element `i`'s line, in `IterChain` order, rendered at the common offset and followed by a newline |
| Reporter.Report | reporter.go:82-138 | Writes banner and lines stopping at the first failure; a failing banner write returns at once with nothing written |
| Reporter.MessagesAtOffset | reporter.go:52-80 | In a built report each link's message starts at the common offset, and a foreign error's text one byte earlier |
| Reporter.MessageAt | reporter.go:56-80 | A plain-rendered line holds its message from `MessageStart` to its end: `offset` for a numbered line, `|function| + 1` bytes earlier otherwise |
| Reporter.MessageStartOfElement | reporter.go:89-111 | For a link's line the message starts at `offset`; for the foreign error's line, whose function is empty, at `offset - 1` |
| Reporter.WrittenMessageAt | reporter.go:114-134 | The line the report writes for element `i` holds its message and the newline from `MessageStart` on |
| Reporter.WrittenMessagesAtOffset | reporter.go:114-134 | Under plain styling, each written line for a link holds its message and the newline from byte `offset` on; the written line for the foreign error holds its text and the newline from byte `offset - 1` on |
| Scenarios.ErrorAtLeaf | chained_error_test.go:15-29 | `New("egad")` and a foreign "egad" both give "egad" |
| Scenarios.ErrorThroughPassthroughs | chained_error_test.go:30-39 | Passthrough links over a foreign "egad" give "egad" |
| Scenarios.ErrorAtInterstitialMessage | chained_error_test.go:40-44 | The nearest message, "oh noes", wins over the foreign text below it |
| Scenarios.NewAndNilCases | chained_error_test.go:98-125 | `New` records frame and message; `Chain(nil)` and `ChainWith(nil, …)` are nil |
| Scenarios.ChainingAChain | chained_error_test.go:168-187 | `Chain(New("egad"))` is a passthrough link with the second frame over the first link |
| Scenarios.ThreeLinksError | chained_error.go:17-28 | Three passthrough links over a foreign "boom" resolve to "boom" |
| Scenarios.ThreeLinksWalk | chained_error.go:110-123 | That chain iterates as the three links, outermost first, then the foreign error |
| Scenarios.ThreeLinksRootCause | chained_error.go:46-56 | That chain has four elements and its intended root cause is the foreign "boom", while the as-written `RootCause` gives nil |

## Left out

- Frame capture (`caller.go`, `runtime.Caller`) is left out. Frames are parameters.
- The accessors `Frame()` and `Message()` (chained_error.go:34-44) read one field each. They are the datatype's fields.
- `report.go` and `report_options.go` (report and exit the process) are left out: they are process control around the reporters.
- `PathBase` is left out because it wraps `filepath.Base`, which is outside this model.
- `errors.Is` and `errors.As` are left out: they are Go runtime behaviour.
- `example/main.go` is left out.
- Terminal colours (`fatih/color`) are abstracted as `Output.Styles`. Layout is proved only for plain styling, where the styles add no bytes.
- The terminal width is a parameter. `term.GetSize` is not modelled.
- `fmt.Sprintf` formatting in `Newf` and `ChainWithf` is left out: these take the already-formatted text.
- Line numbers are `nat`. A negative line number, which `%d` prints with a minus sign, is not modelled.
- Chains.IterChain: models one range over a freshly obtained iterator. In the source the iterator's closure reassigns its captured `err` (chained_error.go:117), so a second range over the same iterator value resumes where the first stopped, and after a complete pass yields a single nil. Every call site in the library ranges over a fresh value.
- Foreign errors that themselves unwrap to further errors are not modelled. A foreign error is a leaf.
- A nil argument to `Flatten`, `buildTable`, or either reporter makes Go panic. The model takes a non-nil error there.
- `Error()`'s panic when no message is reachable is the precondition `Resolvable`.
- Output.WriteAll: a failing write is modelled as writing nothing. Bytes a failing `Fprintf` may already have written are not modelled.
- The reporters' link type (`chainedError` with an optional `current` error) differs from the `ChainedError` type of chained_error.go. The two are modelled as two payload types of one chain.
- The test case "chaining an unchained" (chained_error_test.go:154-167) expects `Chain(errors.New("egad"))` to be a single terminal link. Both the library and this model produce a passthrough link over the foreign error, so no lemma states that expectation.

## Findings

| source | as written | input that shows it | evidently intended | confidence | as-written member | corrected member |
|---|---|---|---|---|---|---|
| chained_error.go:46-56 | `RootCause` declares `var err error` and unwraps from there. `errors.Unwrap(nil)` is nil, so it returns nil at once | `New("x").RootCause()` returns nil rather than the link itself | start from the receiver `e` and return the last error of the chain | high (not executed) | ChainedError.RootCause | ChainedError.RootCauseIntended |

=== FILE: bytes.dfy ===
/**
 Go strings as byte sequences. Go's `len` counts bytes and slicing cuts bytes,
 so every width in the reporters is a byte count.
 */
module Bytes {

  newtype byte = x: int | 0 <= x < 256

  type Bytes = seq<byte>

  const Slash: byte := 47
  const Space: byte := 32
  const Colon: byte := 58
  const Newline: byte := 10

  /** A byte-valued string literal (every character below 256) as bytes. */
  function Str(s: string): (r: Bytes)
    requires forall i :: 0 <= i < |s| ==> s[i] as int < 256
    ensures |r| == |s|
    ensures forall i :: 0 <= i < |s| ==> r[i] as int == s[i] as int
  {
    if s == [] then [] else [s[0] as int as byte] + Str(s[1..])
  }

  /** Number of occurrences of `b` in `s`. */
  function Count(s: Bytes, b: byte): nat
  {
    if s == [] then 0
    else Count(s[..|s| - 1], b) + (if s[|s| - 1] == b then 1 else 0)
  }

  lemma {:induction false} CountAppend(s: Bytes, t: Bytes, b: byte)
    ensures Count(s + t, b) == Count(s, b) + Count(t, b)
    decreases |t|
  {
    if t == [] {
      assert s + t == s;
    } else {
      assert (s + t)[..|s + t| - 1] == s + t[..|t| - 1];
      CountAppend(s, t[..|t| - 1], b);
    }
  }

  lemma {:induction false} CountZero(s: Bytes, b: byte)
    ensures Count(s, b) == 0 <==> b !in s
    decreases |s|
  {
    if s != [] {
      CountZero(s[..|s| - 1], b);
      assert s == s[..|s| - 1] + [s[|s| - 1]];
    }
  }

  /** Go's `strings.LastIndex` for a one-byte needle. */
  function LastIndex(s: Bytes, b: byte): (r: int)
    ensures -1 <= r < |s|
    ensures r == -1 <==> b !in s
    ensures r >= 0 ==> s[r] == b && b !in s[r + 1..]
  {
    if s == [] then -1
    else if s[|s| - 1] == b then |s| - 1
    else
      assert s == s[..|s| - 1] + [s[|s| - 1]];
      LastIndex(s[..|s| - 1], b)
  }

  /** Cutting at the last occurrence removes exactly one occurrence. */
  lemma CountBeforeLast(s: Bytes, b: byte)
    requires b in s
    ensures Count(s[..LastIndex(s, b)], b) == Count(s, b) - 1
    ensures Count(s[LastIndex(s, b) + 1..], b) == 0
  {
    var i := LastIndex(s, b);
    assert s == s[..i] + [b] + s[i + 1..];
    CountAppend(s[..i] + [b], s[i + 1..], b);
    CountAppend(s[..i], [b], b);
    assert [b][..0] == [];
    CountZero(s[i + 1..], b);
  }

  /** `strings.Repeat` of a single byte; Go panics on a negative count, hence `nat`. */
  function Repeat(b: byte, n: nat): (r: Bytes)
    ensures |r| == n
    ensures forall i :: 0 <= i < n ==> r[i] == b
  {
    if n == 0 then [] else Repeat(b, n - 1) + [b]
  }

  /** `s` padded on the right with spaces up to `width` bytes. */
  function PadRight(s: Bytes, width: nat): (r: Bytes)
    requires |s| <= width
    ensures |r| == width
    ensures r[..|s|] == s
    ensures forall i :: |s| <= i < width ==> r[i] == Space
  {
    s + Repeat(Space, width - |s|)
  }

  predicate IsSuffix(t: Bytes, s: Bytes)
  {
    |t| <= |s| && s[|s| - |t|..] == t
  }

  /** `fmt.Sprintf("%d", n)` for a non-negative `n`. */
  function Decimal(n: nat): (r: Bytes)
    ensures 1 <= |r|
    ensures forall i :: 0 <= i < |r| ==> 48 <= r[i] <= 57
    ensures r[0] == 48 ==> n == 0
  {
    if n < 10 then [(48 + n) as byte] else Decimal(n / 10) + [(48 + n % 10) as byte]
  }

  /** Value of a string of decimal digits. */
  function DigitsValue(s: Bytes): nat
    requires forall i :: 0 <= i < |s| ==> 48 <= s[i] <= 57
  {
    if s == [] then 0 else 10 * DigitsValue(s[..|s| - 1]) + (s[|s| - 1] as int - 48)
  }

  /** Decimal formatting loses nothing: reading the digits back gives `n`. */
  lemma {:induction false} DecimalRoundTrip(n: nat)
    ensures DigitsValue(Decimal(n)) == n
  {
    var r := Decimal(n);
    if n >= 10 {
      DecimalRoundTrip(n / 10);
      assert r[..|r| - 1] == Decimal(n / 10);
    }
  }

  /** Segments joined by `sep`, built left to right as a buffer would be. */
  function Join(segs: seq<Bytes>, sep: Bytes): Bytes
  {
    if |segs| == 0 then []
    else if |segs| == 1 then segs[0]
    else Join(segs[..|segs| - 1], sep) + sep + segs[|segs| - 1]
  }

  function SumLengths(segs: seq<Bytes>): nat
  {
    if segs == [] then 0 else SumLengths(segs[..|segs| - 1]) + |segs[|segs| - 1]|
  }

  /** A join of k segments holds exactly k - 1 separators besides the segments. */
  lemma {:induction false} JoinLength(segs: seq<Bytes>, sep: Bytes)
    requires |segs| >= 1
    ensures |Join(segs, sep)| == SumLengths(segs) + (|segs| - 1) * |sep|
    decreases |segs|
  {
    if |segs| == 1 {
      assert segs[..0] == [];
    } else {
      JoinLength(segs[..|segs| - 1], sep);
      assert segs[..|segs| - 1][..|segs| - 2] == segs[..|segs| - 2];
    }
  }

  /** Joining a segment in front of a non-empty list adds one separator after it. */
  lemma {:induction false} JoinPrepend(a: Bytes, segs: seq<Bytes>, sep: Bytes)
    requires |segs| >= 1
    ensures Join([a] + segs, sep) == a + sep + Join(segs, sep)
    decreases |segs|
  {
    var all := [a] + segs;
    if |segs| == 1 {
      assert all[..1] == [a];
    } else {
      assert all[..|all| - 1] == [a] + segs[..|segs| - 1];
      JoinPrepend(a, segs[..|segs| - 1], sep);
    }
  }

  /** Appending the next segment to the join of a prefix. */
  lemma JoinStep(segs: seq<Bytes>, i: nat, sep: Bytes)
    requires i < |segs|
    ensures Join(segs[..i + 1], sep) == if i == 0 then segs[0] else Join(segs[..i], sep) + sep + segs[i]
  {
    assert segs[..i + 1][..i] == segs[..i];
  }

  /**
   One step of a loop that writes the separator only once the buffer is
   non-empty: it extends the join of a prefix by the next segment, provided only
   a lone segment can be empty.
   */
  lemma JoinBufferStep(segs: seq<Bytes>, i: nat, buf: Bytes, sep: Bytes)
    requires i < |segs| && sep != []
    requires buf == Join(segs[..i], sep)
    requires 0 < i ==> buf != []
    requires 1 < |segs| ==> segs[0] != []
    ensures var next := (if |buf| > 0 then buf + sep else buf) + segs[i];
            next == Join(segs[..i + 1], sep) && (i + 1 < |segs| ==> next != [])
  {
    JoinStep(segs, i, sep);
  }

  /** The segment of each item, in order. */
  function MapSegments<T>(items: seq<T>, segment: T -> Bytes): (r: seq<Bytes>)
    ensures |r| == |items|
    ensures forall i :: 0 <= i < |items| ==> r[i] == segment(items[i])
  {
    seq(|items|, i requires 0 <= i < |items| => segment(items[i]))
  }

  /**
   A buffer loop that writes, for each item, the separator when the buffer is
   already non-empty and then the item's segment. When only a lone segment can
   be empty, this is the join of the segments.
   */
  method WriteJoined<T>(items: seq<T>, segment: T -> Bytes, sep: Bytes) returns (buf: Bytes)
    requires sep != []
    requires 1 < |items| ==> segment(items[0]) != []
    ensures buf == Join(MapSegments(items, segment), sep)
  {
    ghost var segs := MapSegments(items, segment);
    buf := [];
    var i := 0;
    while i < |items|
      invariant 0 <= i <= |items|
      invariant buf == Join(segs[..i], sep)
      invariant 0 < i < |items| ==> buf != []
    {
      JoinBufferStep(segs, i, buf, sep);
      if |buf| > 0 {
        buf := buf + sep;
      }
      buf := buf + segment(items[i]);
      i := i + 1;
    }
    assert segs[..i] == segs;
  }

  lemma MapSegmentsPrepend<T>(x: T, items: seq<T>, segment: T -> Bytes)
    ensures MapSegments([x] + items, segment) == [segment(x)] + MapSegments(items, segment)
  {
    var l, r := MapSegments([x] + items, segment), [segment(x)] + MapSegments(items, segment);
    assert |l| == |r|;
    forall k | 0 <= k < |l|
      ensures l[k] == r[k]
    {
      if k > 0 {
        assert ([x] + items)[k] == items[k - 1];
      }
    }
  }
  /** Joining the segments of a longer list adds the new item's segment and a separator in front. */
  lemma JoinMapPrepend<T>(x: T, items: seq<T>, segment: T -> Bytes, sep: Bytes)
    requires |items| >= 1
    ensures Join(MapSegments([x] + items, segment), sep)
            == segment(x) + sep + Join(MapSegments(items, segment), sep)
  {
    MapSegmentsPrepend(x, items, segment);
    JoinPrepend(segment(x), MapSegments(items, segment), sep);
  }

  /** Where the parts of `a + " " + b + " " + c` sit. */
  lemma SpaceSeparatedParts(a: Bytes, b: Bytes, c: Bytes)
    ensures var s := a + [Space] + b + [Space] + c;
            && |s| == |a| + |b| + 2 + |c|
            && s[..|a|] == a
            && s[|a|] == Space
            && s[|a| + 1..|a| + 1 + |b|] == b
            && s[|a| + 1 + |b|] == Space
            && s[|a| + |b| + 2..] == c
  {
    DelimitedParts(a, Space, b, Space, c);
  }

  /** The pieces of `a`, byte `x`, `b`, byte `y`, `c`, read back by position. */
  lemma DelimitedParts(a: Bytes, x: byte, b: Bytes, y: byte, c: Bytes)
    ensures var s := a + [x] + b + [y] + c;
            && |s| == |a| + |b| + 2 + |c|
            && s[..|a|] == a
            && s[|a|] == x
            && s[|a| + 1..|a| + 1 + |b|] == b
            && s[|a| + 1 + |b|] == y
            && s[|a| + |b| + 2..] == c
  {
    var s := a + [x] + b + [y] + c;
    assert s == a + ([x] + b + [y] + c);
    assert s[|a| + 1..] == b + [y] + c;
  }

  /** The pieces of `a`, byte `x`, `c`, read back by position. */
  lemma ClosedParts(a: Bytes, x: byte, c: Bytes)
    ensures var s := a + [x] + c;
            && |s| == |a| + 1 + |c|
            && s[..|a|] == a
            && s[|a|] == x
            && s[|a| + 1..] == c
  {
    var s := a + [x] + c;
    assert s == a + ([x] + c);
  }
}

=== FILE: chained_error.dfy ===
/**
 The chain as `chained_error.go` builds it: a link's payload is its message,
 and the empty message marks a passthrough link that only records a frame.
 Frame capture is a parameter (`frame`) of every constructor.
 */
module ChainedError {
  import opened Bytes
  import opened Wrappers
  import opened Chains
  import Paths

  type ChainedErr = Err<Bytes>

  /** True of the chain elements at which `Error()` stops walking. */
  predicate Stops(x: ChainedErr)
  {
    x.Foreign? || x.payload != []
  }

  /** The text `Error()` returns when it stops at `x`. */
  function StopText(x: ChainedErr): Bytes
  {
    if x.Foreign? then x.text else x.payload
  }

  /** `Error()` returns without panicking: it stops somewhere along the chain. */
  predicate Resolvable(e: ChainedErr)
  {
    match e
    case Foreign(_) => true
    case Node(_, m, next) => m != [] || (next.Some? && Resolvable(next.value))
  }

  /** Index of the first element of `w` at which `Error()` stops, `|w|` when there is none. */
  function FirstStop(w: seq<ChainedErr>): (k: nat)
    ensures k <= |w|
    ensures forall j :: 0 <= j < k ==> !Stops(w[j])
    ensures k < |w| ==> Stops(w[k])
  {
    if w == [] then 0
    else if Stops(w[0]) then 0
    else 1 + FirstStop(w[1..])
  }

  /**
   `Error()`: the message of the nearest link with a non-empty message, or the
   text of the foreign error met first. It panics when it finds neither.
   */
  function Error(e: ChainedErr): (r: Bytes)
    requires Resolvable(e)
  {
    match e
    case Foreign(t) => t
    case Node(_, m, next) => if m != [] then m else Error(next.value)
  }

  /**
   `Error()` is defined exactly when walking from `e` meets a link with a
   message or a foreign error, and then answers the text of the first one met:
   passthrough links never contribute.
   */
  lemma {:induction false} ErrorIsNearestMessage(e: ChainedErr)
    ensures Resolvable(e) <==> FirstStop(Walk(e)) < |Walk(e)|
    ensures Resolvable(e) ==> Error(e) == StopText(Walk(e)[FirstStop(Walk(e))])
  {
    match e
    case Foreign(_) =>
    case Node(_, m, None) =>
    case Node(_, m, Some(n)) =>
      var w := Walk(e);
      assert w == [e] + Walk(n);
      assert w[1..] == Walk(n);
      ErrorIsNearestMessage(n);
  }

  /** `New(message)`: a terminus link carrying `message`. */
  function New(message: Bytes, frame: Frame): (r: ChainedErr)
    ensures r.Node? && r.frame == frame && r.payload == message
    ensures Unwrap(r) == None && Walk(r) == [r]
    ensures message != [] ==> Resolvable(r) && Error(r) == message
    ensures message == [] ==> !Resolvable(r)
  {
    Node(frame, message, None)
  }

  /** `Newf`: as `New`, with the message already formatted by `fmt.Sprintf`. */
  function Newf(formatted: Bytes, frame: Frame): (r: ChainedErr)
    ensures r.Node? && r.frame == frame && r.payload == formatted
    ensures Unwrap(r) == None && Walk(r) == [r]
    ensures formatted != [] ==> Resolvable(r) && Error(r) == formatted
    ensures formatted == [] ==> !Resolvable(r)
  {
    New(formatted, frame)
  }

  /** `Chain(err)`: a passthrough link over `err`; nil stays nil. */
  function Chain(err: Option<ChainedErr>, frame: Frame): (r: Option<ChainedErr>)
    ensures err.None? <==> r.None?
    ensures err.Some? ==> && r.value.Node?
                          && r.value.frame == frame
                          && r.value.payload == []
                          && Unwrap(r.value) == err
  {
    match err
    case None => None
    case Some(e) => Some(Node(frame, [], err))
  }

  /**
   Chaining a non-nil error, with or without a message, puts exactly the new
   link in front of what iterating that error yields.
   */
  lemma ChainPrependsToIteration(e: ChainedErr, message: Bytes, frame: Frame)
    ensures var c := Chain(Some(e), frame);
            IterChain(c) == [c] + IterChain(Some(e))
    ensures var c := ChainWith(Some(e), message, frame);
            IterChain(c) == [c] + IterChain(Some(e))
  {
    IterChainOfLink(Node(frame, [], Some(e)), e);
    IterChainOfLink(Node(frame, message, Some(e)), e);
  }

  /** A passthrough link never contributes to `Error()`: it answers what its cause answers. */
  lemma {:induction false} ChainKeepsError(e: ChainedErr, frame: Frame)
    ensures Resolvable(Chain(Some(e), frame).value) <==> Resolvable(e)
    ensures Resolvable(e) ==> Error(Chain(Some(e), frame).value) == Error(e)
  {
  }

  /** `ChainWith(err, message)`: a link over `err` carrying `message`; nil stays nil. */
  function ChainWith(err: Option<ChainedErr>, message: Bytes, frame: Frame): (r: Option<ChainedErr>)
    ensures err.None? <==> r.None?
    ensures err.Some? ==> && r.value.Node?
                          && r.value.frame == frame
                          && r.value.payload == message
                          && Unwrap(r.value) == err
    ensures err.Some? && message != [] ==> Resolvable(r.value) && Error(r.value) == message
  {
    match err
    case None => None
    case Some(e) => Some(Node(frame, message, err))
  }

  /** `ChainWithf`: as `ChainWith`, with the message already formatted. */
  function ChainWithf(err: Option<ChainedErr>, formatted: Bytes, frame: Frame): (r: Option<ChainedErr>)
    ensures err.None? <==> r.None?
    ensures err.Some? ==> && r.value.Node?
                          && r.value.frame == frame
                          && r.value.payload == formatted
                          && Unwrap(r.value) == err
    ensures err.Some? && formatted != [] ==> Resolvable(r.value) && Error(r.value) == formatted
  {
    ChainWith(err, formatted, frame)
  }

  /**
   `RootCause` as written: its loop starts from a fresh nil variable instead of
   the receiver, so the first unwrap already yields nil and nil is returned.
   */
  function RootCause(e: ChainedErr): (r: Option<ChainedErr>)
    ensures r.None?
  {
    UnwrapToEnd(None)
  }

  /** `RootCause` as documented: the oldest error of the chain. */
  function RootCauseIntended(e: ChainedErr): (r: ChainedErr)
    ensures Unwrap(r) == None
    ensures r == Walk(e)[|Walk(e)| - 1]
    ensures Some(r) == IterChain(Some(e))[|IterChain(Some(e))| - 1]
    ensures EndsForeign(e) <==> r.Foreign?
  {
    EndsForeignAtLast(e);
    UnwrapToEnd(Some(e)).value
  }

  lemma {:induction false} EndsForeignAtLast(e: ChainedErr)
    ensures EndsForeign(e) <==> Walk(e)[|Walk(e)| - 1].Foreign?
  {
    match e
    case Foreign(_) =>
    case Node(_, _, None) =>
    case Node(_, _, Some(n)) =>
      EndsForeignAtLast(n);
      assert Walk(e) == [e] + Walk(n);
  }

  /** The root cause of a one-link chain is that link, yet `RootCause` answers nil. */
  lemma RootCauseIgnoresReceiver(message: Bytes, frame: Frame)
    ensures RootCauseIntended(New(message, frame)) == New(message, frame)
    ensures RootCause(New(message, frame)) != Some(New(message, frame))
  {
  }

  const OpenParen: byte := 40
  const CloseParen: byte := 41

  /** Separator of `Flatten`, byte for byte as the source literal has it. */
  const FlattenSeparator: Bytes := [32, 0xC3, 0xA2, 0xE2, 0x80, 0xA0, 0xE2, 0x80, 0x99, 32]

  /**
   One `Flatten` segment: `function(file:line)` with the file cut to its last two
   segments and " message" when the message is not empty; a foreign error's text.
   */
  function Segment(x: ChainedErr): (r: Bytes)
    ensures x.Node? ==> |r| > |x.frame.func|
  {
    match x
    case Foreign(t) => t
    case Node(f, m, _) =>
      Location(f.func, Paths.PathLastNSegments(2, f.file), Decimal(f.line), MessageSuffix(m))
  }

  /** `fn(path:line)` followed by `tail`. */
  function Location(fn: Bytes, path: Bytes, line: Bytes, tail: Bytes): Bytes
  {
    fn + [OpenParen] + path + [Colon] + (line + [CloseParen] + tail)
  }

  /** " message" after a link's location, or nothing when the message is empty. */
  function MessageSuffix(m: Bytes): Bytes
  {
    if m != [] then [Space] + m else []
  }

  /**
   A link's segment is the `Location` of its function name, its file cut to the
   last two segments, its decimal line number and " message" when it has a
   message (`LocationParts` reads each piece back); it opens with the function
   name and "(", and ends with " message", or with ")" when there is none. A
   foreign error contributes exactly its text.
   */
  lemma SegmentShape(x: ChainedErr)
    ensures x.Foreign? ==> Segment(x) == x.text
    ensures x.Node? ==> Segment(x) == Location(x.frame.func, Paths.PathLastNSegments(2, x.frame.file),
                                               Decimal(x.frame.line), MessageSuffix(x.payload))
    ensures x.Node? ==> var r := Segment(x);
                        && |x.frame.func| < |r| && r[..|x.frame.func|] == x.frame.func && r[|x.frame.func|] == OpenParen
                        && (x.payload != [] ==> |x.payload| < |r| && r[|r| - |x.payload| - 1..] == [Space] + x.payload)
                        && (x.payload == [] ==> r[|r| - 1] == CloseParen)
  {
    if x.Node? {
      var fn, p, d := x.frame.func, Paths.PathLastNSegments(2, x.frame.file), Decimal(x.frame.line);
      LocationEnds(fn, p, d, x.payload);
    }
  }

  /** A location opens with `fn(` and ends with " msg", or with ")" when `msg` is empty. */
  lemma LocationEnds(fn: Bytes, path: Bytes, line: Bytes, msg: Bytes)
    ensures var r := Location(fn, path, line, MessageSuffix(msg));
            && |fn| < |r| && r[..|fn|] == fn && r[|fn|] == OpenParen
            && (msg != [] ==> |msg| < |r| && r[|r| - |msg| - 1..] == [Space] + msg)
            && (msg == [] ==> r[|r| - 1] == CloseParen)
  {
    var tail := MessageSuffix(msg);
    LocationParts(fn, path, line, tail);
    var r := Location(fn, path, line, tail);
    assert r[|r| - |tail|..] == tail;
  }

  /** `fn(path:line)` followed by `tail`, read back piece by piece. */
  lemma LocationParts(fn: Bytes, path: Bytes, line: Bytes, tail: Bytes)
    ensures var r := Location(fn, path, line, tail);
            var i1 := |fn| + 1 + |path|;
            var i2 := i1 + 1 + |line|;
            && |r| == i2 + 1 + |tail|
            && r[..|fn|] == fn && r[|fn|] == OpenParen
            && r[|fn| + 1..i1] == path && r[i1] == Colon
            && r[i1 + 1..i2] == line && r[i2] == CloseParen
            && r[i2 + 1..] == tail
  {
    var rest := line + [CloseParen] + tail;
    var r := fn + [OpenParen] + path + [Colon] + rest;
    DelimitedParts(fn, OpenParen, path, Colon, rest);
    ClosedParts(line, CloseParen, tail);
    var i1 := |fn| + 1 + |path|;
    assert r[i1 + 1..] == rest;
    assert r[i1 + 1..i1 + 1 + |line|] == rest[..|line|];
    assert r[i1 + 1 + |line| + 1..] == rest[|line| + 1..];
  }

  function Segments(w: seq<ChainedErr>): (r: seq<Bytes>)
    ensures |r| == |w|
  {
    MapSegments(w, Segment)
  }

  /** Link segments are never empty, so only the last segment, a foreign one, can be. */
  lemma OnlyLastSegmentMayBeEmpty(e: ChainedErr)
    ensures forall i :: 0 <= i < |Walk(e)| - 1 ==> Segment(Walk(e)[i]) != []
  {
    forall i | 0 <= i < |Walk(e)| - 1
      ensures Segment(Walk(e)[i]) != []
    {
      if Walk(e)[i].Foreign? {
        WalkForeignIsLast(e, i);
      }
    }
  }

  /**
   `Flatten(err)`: a plain error whose text joins one segment per element of
   `IterChain(err)`. A nil argument panics in the source, so `e` is non-nil.
   */
  method Flatten(e: ChainedErr) returns (r: ChainedErr)
    ensures r.Foreign? && Unwrap(r) == None
    ensures r.text == Join(Segments(Walk(e)), FlattenSeparator)
  {
    OnlyLastSegmentMayBeEmpty(e);
    var text := WriteJoined(Walk(e), Segment, FlattenSeparator);
    r := Foreign(text);
  }

  /** `Flatten` over a link adds that link's segment in front, one separator apart. */
  lemma FlattenPrepends(n: ChainedErr, e: ChainedErr)
    requires n.Node? && n.next == Some(e)
    ensures Join(Segments(Walk(n)), FlattenSeparator)
            == Segment(n) + FlattenSeparator + Join(Segments(Walk(e)), FlattenSeparator)
  {
    IterChainOfLink(n, e);
    JoinMapPrepend(n, Walk(e), Segment, FlattenSeparator);
  }

  /** The flattened text has one separator fewer than the chain has elements. */
  lemma FlattenLength(e: ChainedErr)
    ensures |Join(Segments(Walk(e)), FlattenSeparator)|
            == SumLengths(Segments(Walk(e))) + (|IterChain(Some(e))| - 1) * |FlattenSeparator|
  {
    JoinLength(Segments(Walk(e)), FlattenSeparator);
  }
}

=== FILE: chains.dfy ===
/**
 The error chain shared by the library and its reporters: each link records a
 frame, a payload and the older cause it wraps. A chain ends at a link with no
 cause or at a foreign error, an error value not produced by this library.
 Because the datatype is inductive, every chain is finite and acyclic.
 */
module Chains {
  import opened Bytes
  import opened Wrappers

  /** The call site recorded by one chain-construction call. */
  datatype Frame = Frame(func: Bytes, file: Bytes, line: nat)

  /**
   `Node` is a chain link whose payload is `M`; `Foreign` is any other error,
   known only by its `Error()` text. A foreign error is a leaf here.
   */
  datatype Err<M> = Node(frame: Frame, payload: M, next: Option<Err<M>>) | Foreign(text: Bytes)

  /** Number of chain links reachable from `e`, `e` included. */
  function NodeCount<M>(e: Err<M>): nat
  {
    match e
    case Foreign(_) => 0
    case Node(_, _, None) => 1
    case Node(_, _, Some(n)) => 1 + NodeCount(n)
  }

  /** True when the chain from `e` ends at a foreign error. */
  predicate EndsForeign<M>(e: Err<M>)
  {
    match e
    case Foreign(_) => true
    case Node(_, _, None) => false
    case Node(_, _, Some(n)) => EndsForeign(n)
  }

  /** One step towards the oldest cause; a foreign error does not unwrap. */
  function Unwrap<M>(e: Err<M>): Option<Err<M>>
  {
    match e
    case Foreign(_) => None
    case Node(_, _, next) => next
  }

  /** Unwrapping moves one link towards the end and keeps how the chain ends. */
  lemma UnwrapShortens<M>(e: Err<M>)
    requires Unwrap(e).Some?
    ensures e.Node? && NodeCount(Unwrap(e).value) == NodeCount(e) - 1
    ensures EndsForeign(Unwrap(e).value) == EndsForeign(e)
  {
  }

  /** `errors.Unwrap`, which also accepts nil and returns nil for it. */
  function UnwrapAny<M>(err: Option<Err<M>>): (r: Option<Err<M>>)
  {
    match err
    case None => None
    case Some(e) => Unwrap(e)
  }

  /**
   The errors `e`, `Unwrap(e)`, `Unwrap(Unwrap(e))`, ... up to and including
   the first one that does not unwrap.
   */
  function Walk<M>(e: Err<M>): (r: seq<Err<M>>)
    ensures 1 <= |r| && r[0] == e
    ensures forall i :: 0 <= i < |r| - 1 ==> Unwrap(r[i]) == Some(r[i + 1])
    ensures Unwrap(r[|r| - 1]) == None
  {
    match e
    case Foreign(_) => [e]
    case Node(_, _, None) => [e]
    case Node(_, _, Some(n)) => [e] + Walk(n)
  }

  /** The walk visits every link once and then the foreign end, if any. */
  lemma {:induction false} WalkLength<M>(e: Err<M>)
    ensures |Walk(e)| == NodeCount(e) + (if EndsForeign(e) then 1 else 0)
  {
    match e
    case Foreign(_) =>
    case Node(_, _, None) =>
    case Node(_, _, Some(n)) => WalkLength(n);
  }

  /** Only the last element of a walk can be a foreign error. */
  lemma {:induction false} WalkForeignIsLast<M>(e: Err<M>, i: nat)
    requires i < |Walk(e)| && Walk(e)[i].Foreign?
    ensures i == |Walk(e)| - 1
  {
    if i < |Walk(e)| - 1 {
      assert Unwrap(Walk(e)[i]) == Some(Walk(e)[i + 1]);
    }
  }

  /**
   The elements `IterChain(err)` yields, in order: for a non-nil `err` its walk;
   `IterChain(nil)` yields nil once.
   */
  function IterChain<M>(err: Option<Err<M>>): (r: seq<Option<Err<M>>>)
    ensures 1 <= |r| && r[0] == err
    ensures err.None? ==> |r| == 1
    ensures err.Some? ==> |r| == |Walk(err.value)| && forall i :: 0 <= i < |r| ==> r[i] == Some(Walk(err.value)[i])
  {
    match err
    case None => [None]
    case Some(e) =>
      var w := Walk(e);
      seq(|w|, i requires 0 <= i < |w| => Some(w[i]))
  }

  /**
   `IterChain(err)` yields `err`, then each successive `errors.Unwrap` result,
   and stops right after the first element that unwraps to nil; the number of
   elements is the number of links plus one for a foreign end.
   */
  lemma IterChainSteps<M>(err: Option<Err<M>>)
    ensures var r := IterChain(err);
            && (forall i {:trigger UnwrapAny(r[i])} :: 0 <= i < |r| - 1 ==> r[i + 1].Some? && UnwrapAny(r[i]) == r[i + 1])
            && UnwrapAny(r[|r| - 1]) == None
            && (err.Some? ==> |r| == NodeCount(err.value) + (if EndsForeign(err.value) then 1 else 0))
  {
    if err.Some? {
      WalkLength(err.value);
    }
  }

  /** Iterating a link yields the link, then what iterating its next error yields. */
  lemma IterChainOfLink<M>(n: Err<M>, e: Err<M>)
    requires n.Node? && n.next == Some(e)
    ensures Walk(n) == [n] + Walk(e)
    ensures IterChain(Some(n)) == [Some(n)] + IterChain(Some(e))
  {
    var w, we := Walk(n), Walk(e);
    var i, j := IterChain(Some(n)), IterChain(Some(e));
    assert w == [n] + we;
    assert |i| == |j| + 1;
    forall k | 0 <= k < |i|
      ensures i[k] == ([Some(n)] + j)[k]
    {
      if k > 0 {
        assert i[k] == Some(w[k]);
        assert w[k] == we[k - 1];
        assert j[k - 1] == Some(we[k - 1]);
      }
    }
  }

  /** The unwrap loop of `RootCause`, from a given start: the last element iterated. */
  function UnwrapToEnd<M>(err: Option<Err<M>>): (r: Option<Err<M>>)
    ensures UnwrapAny(r) == None
    ensures err.Some? ==> r.Some? && r.value in Walk(err.value)
    ensures err.None? ==> r.None?
    ensures err.Some? ==> r.value == Walk(err.value)[|Walk(err.value)| - 1]
    decreases if err.Some? then |Walk(err.value)| else 0
  {
    match UnwrapAny(err)
    case None => err
    case Some(n) =>
      assert Walk(err.value) == [err.value] + Walk(n);
      UnwrapToEnd(Some(n))
  }
}

=== FILE: default_reporter.dfy ===
/**
 The table reporter of `default_reporter.go`: one row per chain element, three
 columns sized to their widest entry, the message column optionally fitted to
 the terminal, every line space-padded so that the columns align.
 */
module DefaultReporter {
  import opened Bytes
  import opened Wrappers
  import opened Chains
  import opened Output
  import Paths

  /**
   A chain as the reporters read it (`chainedError{current, next}`): a link's
   payload is its `current` error's text, `None` when `current` is nil.
   */
  type ReportErr = Err<Option<Bytes>>

  /** "↓" in UTF-8: the message shown for a passthrough link. */
  const DownArrow: Bytes := [0xE2, 0x86, 0x93]

  const Ellipsis: Bytes := [46, 46, 46]

  /** One table row. */
  datatype Link = Link(func: Bytes, path: Bytes, line: Bytes, message: Bytes)

  /** `link.hasFrame`: rows with an empty path are printed with blank columns. */
  predicate HasFrame(l: Link)
  {
    l.path != []
  }

  /**
   A row is printed framed exactly when its formatted path is non-empty: the
   formatted file for a link, the formatted empty path for the foreign end.
   */
  lemma FramedExactlyWhenPathShown(e: ReportErr, pathFormatter: Bytes -> Bytes, funcFormatter: Bytes -> Bytes, i: nat)
    requires i < |Walk(e)|
    ensures var row := BuildRows(e, pathFormatter, funcFormatter)[i];
            var x := Walk(e)[i];
            && (x.Node? ==> (HasFrame(row) <==> pathFormatter(x.frame.file) != []))
            && (x.Foreign? ==> (HasFrame(row) <==> pathFormatter([]) != []))
  {
  }

  /** The row built for one chain element. */
  function RowOf(x: ReportErr, pathFormatter: Bytes -> Bytes, funcFormatter: Bytes -> Bytes): Link
  {
    match x
    case Node(f, cur, _) =>
      Link(funcFormatter(f.func), pathFormatter(f.file), Decimal(f.line),
           if cur.Some? then cur.value else DownArrow)
    case Foreign(t) => Link([], pathFormatter([]), [], t)
  }

  /**
   The rows of `buildTable`: one per element `IterChain` yields, in order. A
   nil chain panics in the source, so `e` is non-nil.
   */
  function BuildRows(e: ReportErr, pathFormatter: Bytes -> Bytes, funcFormatter: Bytes -> Bytes): (rows: seq<Link>)
    ensures |rows| == |IterChain(Some(e))|
    ensures forall i :: 0 <= i < |rows| ==> rows[i] == RowOf(Walk(e)[i], pathFormatter, funcFormatter)
  {
    var w := Walk(e);
    seq(|w|, i requires 0 <= i < |w| => RowOf(w[i], pathFormatter, funcFormatter))
  }

  /**
   What each row holds: a link's formatted function, path and line number and
   its message or "↓"; for the foreign end, empty function and line, the
   formatted empty path and the error's text. Exactly the foreign row has no line.
   */
  lemma RowContents(e: ReportErr, pathFormatter: Bytes -> Bytes, funcFormatter: Bytes -> Bytes, i: nat)
    requires i < |Walk(e)|
    ensures var row := BuildRows(e, pathFormatter, funcFormatter)[i];
            var x := Walk(e)[i];
            && (row.line == [] <==> x.Foreign?)
            && (x.Node? ==> && row.func == funcFormatter(x.frame.func)
                            && row.path == pathFormatter(x.frame.file)
                            && DigitsValue(row.line) == x.frame.line
                            && (x.payload.None? ==> row.message == DownArrow)
                            && (x.payload.Some? ==> row.message == x.payload.value))
            && (x.Foreign? ==> && row.func == [] && row.path == pathFormatter([])
                               && row.message == x.text && i == |Walk(e)| - 1)
  {
    var x := Walk(e)[i];
    if x.Node? {
      DecimalRoundTrip(x.frame.line);
    } else {
      WalkForeignIsLast(e, i);
    }
  }

  /** `cols`: the function column, the "path:line" column and the message column. */
  datatype Columns = Columns(func: nat, pathLine: nat, msg: nat)

  /** Width of a row's "path:line" text. */
  function PathLineWidth(l: Link): nat
  {
    |l.path| + |l.line| + 1
  }

  function Max(a: nat, b: nat): nat { if a >= b then a else b }

  /** Column widths before clipping: the widest entry of each column, 0 for no rows. */
  function MaxWidths(rows: seq<Link>): (c: Columns)
    ensures forall i :: 0 <= i < |rows| ==>
              && |rows[i].func| <= c.func
              && PathLineWidth(rows[i]) <= c.pathLine
              && |rows[i].message| <= c.msg
    ensures rows == [] ==> c == Columns(0, 0, 0)
    ensures rows != [] ==> && (exists i :: 0 <= i < |rows| && |rows[i].func| == c.func)
                           && (exists i :: 0 <= i < |rows| && PathLineWidth(rows[i]) == c.pathLine)
                           && (exists i :: 0 <= i < |rows| && |rows[i].message| == c.msg)
  {
    if rows == [] then Columns(0, 0, 0)
    else
      var c := MaxWidths(rows[..|rows| - 1]);
      var l := rows[|rows| - 1];
      assert forall i :: 0 <= i < |rows| - 1 ==> rows[..|rows| - 1][i] == rows[i];
      Columns(Max(c.func, |l.func|), Max(c.pathLine, PathLineWidth(l)), Max(c.msg, |l.message|))
  }

  /** The message width below which the terminal fit never goes. */
  const MinMessageWidth: int := 10

  /**
   Terminal fit: with a known terminal width `w`, the message column becomes
   `w - cols[0] - cols[1] - 2` when that is above 10, which can shrink or grow it.
   */
  function Clip(c: Columns, termWidth: Option<int>): (r: Columns)
    ensures r.func == c.func && r.pathLine == c.pathLine
    ensures r.msg != c.msg ==> && termWidth.Some?
                               && r.msg > MinMessageWidth
                               && r.msg == termWidth.value - c.func - c.pathLine - 2
    ensures termWidth.Some? && termWidth.value - c.func - c.pathLine - 2 > MinMessageWidth ==>
              r.func + r.pathLine + r.msg + 2 == termWidth.value
    ensures termWidth.None? ==> r == c
  {
    match termWidth
    case Some(w) =>
      var pw := w - c.func - c.pathLine - 2;
      if pw > MinMessageWidth then Columns(c.func, c.pathLine, pw) else c
    case None => c
  }

  datatype Table = Table(cols: Columns, rows: seq<Link>)

  /** Every framed row fits the first two columns, as padding requires. */
  predicate Fits(t: Table)
  {
    forall i :: 0 <= i < |t.rows| && HasFrame(t.rows[i]) ==>
      |t.rows[i].func| <= t.cols.func && PathLineWidth(t.rows[i]) <= t.cols.pathLine
  }

  /** `buildTable(err, pathFormatter, funcFormatter)` with the terminal width as input. */
  function BuildTable(e: ReportErr, pathFormatter: Bytes -> Bytes, funcFormatter: Bytes -> Bytes,
                      termWidth: Option<int>): (t: Table)
    ensures t.rows == BuildRows(e, pathFormatter, funcFormatter)
    ensures Fits(t)
    ensures t.cols == Clip(MaxWidths(t.rows), termWidth)
  {
    var rows := BuildRows(e, pathFormatter, funcFormatter);
    Table(Clip(MaxWidths(rows), termWidth), rows)
  }

  /** A message longer than `width` bytes is cut to `width` bytes followed by "...". */
  function Truncate(msg: Bytes, width: nat): (r: Bytes)
    ensures |msg| <= width ==> r == msg
    ensures |msg| > width ==> |r| == width + 3 && r[..width] == msg[..width] && r[width..] == Ellipsis
  {
    if |msg| > width then msg[..width] + Ellipsis else msg
  }

  /** One rendered line of the table, newline included. */
  function RenderRow(t: Table, row: Link, styles: Styles): (r: Bytes)
    requires HasFrame(row) ==> |row.func| <= t.cols.func && PathLineWidth(row) <= t.cols.pathLine
    ensures 3 <= |r| && r[|r| - 1] == Newline
  {
    var msg := Truncate(row.message, t.cols.msg);
    if !HasFrame(row) then
      Repeat(Space, t.cols.func) + [Space] + Repeat(Space, t.cols.pathLine) + [Space] + styles.msg(msg) + [Newline]
    else
      styles.func(row.func + Repeat(Space, t.cols.func - |row.func|)) + [Space]
      + styles.path(row.path) + [Colon] + styles.line(row.line)
      + Repeat(Space, t.cols.pathLine - PathLineWidth(row)) + [Space]
      + styles.msg(msg) + [Newline]
  }

  /**
   Under plain styling a framed row shows its function padded to exactly the
   first column and "path:line" padded to exactly the second, one space apart;
   the (possibly truncated) message starts right after both.
   */
  lemma FramedRowLayout(t: Table, row: Link)
    requires HasFrame(row) && |row.func| <= t.cols.func && PathLineWidth(row) <= t.cols.pathLine
    ensures var s := RenderRow(t, row, Plain);
            var m := t.cols.func + t.cols.pathLine + 2;
            && |s| == m + |Truncate(row.message, t.cols.msg)| + 1
            && s[..t.cols.func] == PadRight(row.func, t.cols.func)
            && s[t.cols.func] == Space
            && s[t.cols.func + 1..m - 1] == PadRight(row.path + [Colon] + row.line, t.cols.pathLine)
            && s[m - 1] == Space
            && s[m..] == Truncate(row.message, t.cols.msg) + [Newline]
  {
    var c0, c1 := t.cols.func, t.cols.pathLine;
    var msg := Truncate(row.message, t.cols.msg);
    FramedRowParts(t, row);
    SpaceSeparatedParts(PadRight(row.func, c0), PadRight(row.path + [Colon] + row.line, c1), msg + [Newline]);
  }

  /** Under plain styling a framed row is its two padded columns and the message, space-separated. */
  lemma FramedRowParts(t: Table, row: Link)
    requires HasFrame(row) && |row.func| <= t.cols.func && PathLineWidth(row) <= t.cols.pathLine
    ensures RenderRow(t, row, Plain)
            == PadRight(row.func, t.cols.func) + [Space] + PadRight(row.path + [Colon] + row.line, t.cols.pathLine)
               + [Space] + (Truncate(row.message, t.cols.msg) + [Newline])
  {
    var msg := Truncate(row.message, t.cols.msg);
    var a := row.func + Repeat(Space, t.cols.func - |row.func|);
    var pad := Repeat(Space, t.cols.pathLine - PathLineWidth(row));
    assert RenderRow(t, row, Plain) == a + [Space] + row.path + [Colon] + row.line + pad + [Space] + msg + [Newline];
    Regroup(a, row.path, row.line, pad, msg);
  }

  /** Regrouping the pieces of a framed row into its two columns and the message. */
  lemma Regroup(a: Bytes, path: Bytes, line: Bytes, pad: Bytes, msg: Bytes)
    ensures a + [Space] + path + [Colon] + line + pad + [Space] + msg + [Newline]
            == a + [Space] + (path + [Colon] + line + pad) + [Space] + (msg + [Newline])
  {
  }

  /** Under plain styling a frameless row is blank up to the message column. */
  lemma BlankRowLayout(t: Table, row: Link)
    requires !HasFrame(row)
    ensures var s := RenderRow(t, row, Plain);
            var m := t.cols.func + t.cols.pathLine + 2;
            && |s| == m + |Truncate(row.message, t.cols.msg)| + 1
            && (forall i :: 0 <= i < m ==> s[i] == Space)
            && s[m..] == Truncate(row.message, t.cols.msg) + [Newline]
  {
    var c0, c1 := t.cols.func, t.cols.pathLine;
    var msg := Truncate(row.message, t.cols.msg);
    var s := RenderRow(t, row, Plain);
    var blank := Repeat(Space, c0) + [Space] + Repeat(Space, c1) + [Space];
    assert s == blank + (msg + [Newline]);
    assert forall i :: 0 <= i < |blank| ==> blank[i] == Space;
  }

  /**
   Under plain styling every line of a table that fits starts its message at the
   same byte, `cols[0] + cols[1] + 2`, framed or not.
   */
  lemma MessageColumnAligned(t: Table, i: nat)
    requires Fits(t) && i < |t.rows|
    ensures var s := RenderedLines(t, Plain)[i];
            var m := t.cols.func + t.cols.pathLine + 2;
            m <= |s| && s[m..] == Truncate(t.rows[i].message, t.cols.msg) + [Newline]
  {
    if HasFrame(t.rows[i]) {
      FramedRowLayout(t, t.rows[i]);
    } else {
      BlankRowLayout(t, t.rows[i]);
    }
  }

  /** The lines `render` writes, one per row. */
  function RenderedLines(t: Table, styles: Styles): (r: seq<Bytes>)
    requires Fits(t)
    ensures |r| == |t.rows|
    ensures forall i :: 0 <= i < |r| ==> r[i] == RenderRow(t, t.rows[i], styles)
  {
    seq(|t.rows|, i requires 0 <= i < |t.rows| => RenderRow(t, t.rows[i], styles))
  }

  /**
   `table.render`: writes the rows in order, one write each, and returns the
   error of the first write that fails without writing any later row.
   */
  method Render(t: Table, styles: Styles, fault: nat -> Option<Bytes>) returns (out: Outcome)
    requires Fits(t)
    ensures out == Emit(RenderedLines(t, styles), fault)
    ensures out.err.None? ==> |out.written| == |t.rows|
    ensures out.err.Some? ==> out.err == fault(|out.written|)
  {
    ghost var lines := RenderedLines(t, styles);
    var written: seq<Bytes> := [];
    var i := 0;
    while i < |t.rows|
      invariant 0 <= i <= |t.rows|
      invariant written == lines[..i]
      invariant forall j :: 0 <= j < i ==> fault(j).None?
    {
      var row := t.rows[i];
      var s := RenderRow(t, row, styles);
      var f := fault(i);
      if f.Some? {
        assert FirstFault(fault, |lines|, 0) == i;
        return Outcome(written, f);
      }
      written := written + [s];
      i := i + 1;
    }
    assert FirstFault(fault, |lines|, 0) == |lines|;
    assert written == lines;
    return Outcome(written, None);
  }

  /** The reporter `NewDefaultReporter(pathFormatter, funcFormatter)` returns, applied to `e`. */
  method Report(e: ReportErr, pathFormatter: Bytes -> Bytes, funcFormatter: Bytes -> Bytes,
                termWidth: Option<int>, styles: Styles, fault: nat -> Option<Bytes>)
    returns (out: Outcome)
    ensures var t := BuildTable(e, pathFormatter, funcFormatter, termWidth);
            out == Emit(RenderedLines(t, styles), fault)
    ensures out.err.None? ==> |out.written| == |IterChain(Some(e))|
  {
    var t := BuildTable(e, pathFormatter, funcFormatter, termWidth);
    out := Render(t, styles, fault);
  }

  /** `DefaultReporter`'s path formatter: the last two path segments. */
  function DefaultPathFormatter(p: Bytes): (r: Bytes)
    ensures p == [] ==> r == Paths.UnknownPathText
    ensures p != [] ==> IsSuffix(r, p) && Count(r, Slash) < 2
  {
    TwoSegmentsFewerSlashes(p);
    Paths.PathLastNSegments(2, p)
  }

  /** A non-empty path cut to its last two segments keeps at most one slash. */
  lemma TwoSegmentsFewerSlashes(p: Bytes)
    ensures p != [] ==> Count(Paths.PathLastNSegments(2, p), Slash) < 2
  {
    if p != [] {
      Paths.PathLastNSegmentsFewerSlashes(2, p);
    }
  }

  /** With `DefaultReporter`'s formatters, the foreign row shows "??" and so counts as framed. */
  lemma DefaultForeignRowHasFrame(e: ReportErr, i: nat)
    requires i < |Walk(e)| && Walk(e)[i].Foreign?
    ensures var row := BuildRows(e, DefaultPathFormatter, Paths.OmitImportPath)[i];
            row.path == Paths.UnknownPathText && HasFrame(row)
  {
  }
}

=== FILE: output.dfy ===
/**
 The writer the reporters print to, and the styling hooks they apply.
 A writer is modelled by `fault`: `fault(k)` is the error the k-th write call
 (counting from 0) fails with, or `None` when that write succeeds.
 */
module Output {
  import opened Bytes
  import opened Wrappers

  /** The lines a run of writes got out, and the error that stopped it, if any. */
  datatype Outcome = Outcome(written: seq<Bytes>, err: Option<Bytes>)

  /**
   Per-column styling functions (the `color.SprintFunc` values); `Plain` is the
   identity styling under which widths are byte counts of the plain text.
   */
  datatype Styles = Styles(func: Bytes -> Bytes, path: Bytes -> Bytes, line: Bytes -> Bytes, msg: Bytes -> Bytes)

  const Plain: Styles := Styles(s => s, s => s, s => s, s => s)

  /** Index of the first failing write among those numbered `from` up to `n`, or `n` when none fails. */
  function FirstFault(fault: nat -> Option<Bytes>, n: nat, from: nat): (k: nat)
    requires from <= n
    ensures from <= k <= n
    ensures forall j :: from <= j < k ==> fault(j).None?
    ensures k < n ==> fault(k).Some?
    decreases n - from
  {
    if from == n then n
    else if fault(from).Some? then from
    else FirstFault(fault, n, from + 1)
  }

  /**
   Writing `lines` one call each, stopping at the first failed call: what got
   out and the error returned.
   */
  function Emit(lines: seq<Bytes>, fault: nat -> Option<Bytes>): (r: Outcome)
    ensures |r.written| <= |lines| && r.written == lines[..|r.written|]
    ensures forall k :: 0 <= k < |r.written| ==> fault(k).None?
    ensures r.err.None? <==> r.written == lines
    ensures r.err.Some? ==> r.err == fault(|r.written|)
  {
    var k := FirstFault(fault, |lines|, 0);
    if k == |lines| then Outcome(lines, None) else Outcome(lines[..k], fault(k))
  }

  /** Writes `lines` in order, one call each, returning at the first failed write. */
  method WriteAll(lines: seq<Bytes>, fault: nat -> Option<Bytes>) returns (out: Outcome)
    ensures out == Emit(lines, fault)
  {
    var written: seq<Bytes> := [];
    var i := 0;
    while i < |lines|
      invariant 0 <= i <= |lines|
      invariant written == lines[..i]
      invariant forall j :: 0 <= j < i ==> fault(j).None?
    {
      var f := fault(i);
      if f.Some? {
        assert FirstFault(fault, |lines|, 0) == i;
        return Outcome(written, f);
      }
      written := written + [lines[i]];
      i := i + 1;
    }
    assert FirstFault(fault, |lines|, 0) == |lines|;
    return Outcome(written, None);
  }
}

=== FILE: paths.dfy ===
/** Shortening of source paths and function names for display. */
module Paths {
  import opened Bytes

  /** What a path formatter shows for an unknown (empty) path. */
  const UnknownPathText: Bytes := Str("??")

  function Min(a: int, b: int): int { if a <= b then a else b }

  /**
   The prefix left after cutting `n` times at the last '/', stopping early
   when no '/' is left (the loop of `PathLastNSegments`).
   */
  function StripSegments(pfx: Bytes, n: int): (r: Bytes)
    ensures |r| <= |pfx| && pfx[..|r|] == r
    ensures Count(r, Slash) == Count(pfx, Slash) - Min(if n < 0 then 0 else n, Count(pfx, Slash))
    ensures |r| < |pfx| ==> pfx[|r|] == Slash
    decreases n
  {
    if n <= 0 then pfx
    else
      var idx := LastIndex(pfx, Slash);
      if idx == -1 then
        CountZero(pfx, Slash);
        pfx
      else
        CountBeforeLast(pfx, Slash);
        StripSegments(pfx[..idx], n - 1)
  }

  /**
   `PathLastNSegments(n)(path)`: the last `n` '/'-separated segments of `path`,
   "??" for the empty path. When `path` has at most `n` '/', everything after
   the first '/' is kept.
   */
  function PathLastNSegments(n: int, path: Bytes): (r: Bytes)
    ensures path == [] ==> r == UnknownPathText
    ensures path != [] ==> IsSuffix(r, path)
    ensures path != [] && (n <= 0 || Slash !in path) ==> r == path
    ensures path != [] && n >= 1 && Slash in path ==>
              && |r| < |path|
              && path[|path| - |r| - 1] == Slash
              && Count(r, Slash) == Min(n, Count(path, Slash)) - 1
  {
    if path == [] then UnknownPathText
    else
      var pfx := StripSegments(path, n);
      if |pfx| == |path| then
        CountZero(path, Slash);
        path
      else
        assert path == pfx + [Slash] + path[|pfx| + 1..];
        CountAppend(pfx + [Slash], path[|pfx| + 1..], Slash);
        CountAppend(pfx, [Slash], Slash);
        assert [Slash][..0] == [];
        CountZero(path, Slash);
        path[|pfx| + 1..]
  }

  /** With `n` at least 1 the result has fewer than `n` '/'. */
  lemma PathLastNSegmentsFewerSlashes(n: int, path: Bytes)
    requires path != [] && n >= 1
    ensures Count(PathLastNSegments(n, path), Slash) < n
  {
    if Slash !in path {
      CountZero(path, Slash);
    }
  }

  /** `OmitImportPath`: the function name after its last '/', if any. */
  function OmitImportPath(f: Bytes): (r: Bytes)
    ensures Slash !in r
    ensures IsSuffix(r, f)
    ensures Slash !in f ==> r == f
    ensures Slash in f ==> |r| < |f| && f[|f| - |r| - 1] == Slash
  {
    var ix := LastIndex(f, Slash);
    if ix == -1 then f else f[ix + 1..]
  }

  /** Shortening a name twice changes nothing more. */
  lemma OmitImportPathIdempotent(f: Bytes)
    ensures OmitImportPath(OmitImportPath(f)) == OmitImportPath(f)
  {
  }
}

=== FILE: reporter.dfy ===
/**
 The older line reporter of `reporter.go`: a " Fatal Error " banner, then one
 line per chain element with every message starting at one common offset.
 */
module Reporter {
  import opened Bytes
  import opened Wrappers
  import opened Chains
  import opened Output
  import Paths

  /** A chain as this reporter reads it: `None` for a nil `current`. */
  type ReportErr = Err<Option<Bytes>>

  /** "↓" in UTF-8: the message shown for a passthrough link. */
  const DownArrow: Bytes := [0xE2, 0x86, 0x93]

  const FatalError: Bytes := Str(" Fatal Error ")

  /**
   `PathLastNSegments(n)(path)` exactly as this file's loop computes it; it is
   the same function as the table reporter's.
   */
  method PathLastNSegments(n: int, path: Bytes) returns (r: Bytes)
    ensures r == Paths.PathLastNSegments(n, path)
    ensures path != [] ==> IsSuffix(r, path)
  {
    if path == [] {
      return Paths.UnknownPathText;
    }
    var pfx := path;
    var i := 0;
    while i < n
      invariant Paths.StripSegments(pfx, n - i) == Paths.StripSegments(path, n)
    {
      var idx := LastIndex(pfx, Slash);
      if idx == -1 {
        break;
      }
      pfx := pfx[..idx];
      i := i + 1;
    }
    if |pfx| == |path| {
      return path;
    }
    return path[|pfx| + 1..];
  }

  /** One printed line of the report. */
  datatype LinkLine = LinkLine(func: Bytes, path: Bytes, line: Bytes, message: Bytes)

  /** `linkLine.pathWidth`: the width of the text before the message, less the padding. */
  function PathWidth(l: LinkLine): nat
  {
    |l.func| + |l.path| + |l.line| + 3
  }

  /** The line built for one chain element (the function name is not formatted here). */
  function LineOf(x: ReportErr, pathFormatter: Bytes -> Bytes): LinkLine
  {
    match x
    case Node(f, cur, _) =>
      LinkLine(f.func, pathFormatter(f.file), Decimal(f.line), if cur.Some? then cur.value else DownArrow)
    case Foreign(t) => LinkLine([], pathFormatter([]), [], t)
  }

  /** The lines of the reporter: one per element `IterChain` yields, in order. */
  function BuildLines(e: ReportErr, pathFormatter: Bytes -> Bytes): (lines: seq<LinkLine>)
    ensures |lines| == |IterChain(Some(e))|
    ensures forall i :: 0 <= i < |lines| ==> lines[i] == LineOf(Walk(e)[i], pathFormatter)
  {
    var w := Walk(e);
    seq(|w|, i requires 0 <= i < |w| => LineOf(w[i], pathFormatter))
  }

  /**
   What each line holds: a link's function, formatted path, line number and its
   message or "↓"; for the foreign end, empty function and line, the formatted
   empty path and the error's text. Exactly the foreign line has no line number.
   */
  lemma LineContents(e: ReportErr, pathFormatter: Bytes -> Bytes, i: nat)
    requires i < |Walk(e)|
    ensures var l := BuildLines(e, pathFormatter)[i];
            var x := Walk(e)[i];
            && (l.line == [] <==> x.Foreign?)
            && (x.Node? ==> && l.func == x.frame.func
                            && l.path == pathFormatter(x.frame.file)
                            && DigitsValue(l.line) == x.frame.line
                            && (x.payload.None? ==> l.message == DownArrow)
                            && (x.payload.Some? ==> l.message == x.payload.value))
            && (x.Foreign? ==> && l.func == [] && l.path == pathFormatter([])
                               && l.message == x.text && i == |Walk(e)| - 1)
  {
    var x := Walk(e)[i];
    if x.Node? {
      DecimalRoundTrip(x.frame.line);
    } else {
      WalkForeignIsLast(e, i);
    }
  }

  /** `offset`: the largest `pathWidth` over all lines, 0 for none. */
  function Offset(lines: seq<LinkLine>): (r: nat)
    ensures forall i :: 0 <= i < |lines| ==> PathWidth(lines[i]) <= r
    ensures lines == [] ==> r == 0
    ensures lines != [] ==> exists i :: 0 <= i < |lines| && PathWidth(lines[i]) == r
  {
    if lines == [] then 0
    else
      var r := Offset(lines[..|lines| - 1]);
      var w := PathWidth(lines[|lines| - 1]);
      assert forall i :: 0 <= i < |lines| - 1 ==> lines[..|lines| - 1][i] == lines[i];
      if w > r then w else r
  }

  /** `linkLine.render(offset, ...)`, without the trailing newline. */
  function RenderLine(l: LinkLine, offset: nat, styles: Styles): Bytes
    requires PathWidth(l) <= offset
  {
    if l.line == [] then
      styles.path(l.path) + Repeat(Space, offset - PathWidth(l)) + [Space, Space] + styles.msg(l.message)
    else
      styles.func(l.func) + [Space] + styles.path(l.path) + [Colon] + styles.line(l.line)
      + Repeat(Space, offset - PathWidth(l)) + [Space] + styles.msg(l.message)
  }

  /**
   Under plain styling a line with a line number reads `function path:line`,
   spaces up to byte `offset`, then the message; a line without one reads the
   path, spaces, then the message `|function| + 1` bytes earlier, at
   `offset - 1` for the foreign line, whose function is empty.
   */
  lemma RenderLineLayout(l: LinkLine, offset: nat)
    requires PathWidth(l) <= offset
    ensures var s := RenderLine(l, offset, Plain);
            && (l.line != [] ==> |s| == offset + |l.message| && s[offset..] == l.message
                                 && s[..|l.func| + 1] == l.func + [Space])
            && (l.line == [] ==> |s| == offset - 1 - |l.func| + |l.message|
                                 && s[offset - 1 - |l.func|..] == l.message
                                 && s[..|l.path|] == l.path)
    ensures var s, i := RenderLine(l, offset, Plain), |l.func| + 1;
            l.line != [] ==> && s[i..i + |l.path|] == l.path
                             && s[i + |l.path|] == Colon
                             && s[i + |l.path| + 1..PathWidth(l) - 1] == l.line
                             && (forall q :: PathWidth(l) - 1 <= q < offset ==> s[q] == Space)
    ensures var s := RenderLine(l, offset, Plain);
            l.line == [] ==> forall q :: |l.path| <= q < offset - 1 - |l.func| ==> s[q] == Space
  {
    var s := RenderLine(l, offset, Plain);
    var pad := Repeat(Space, offset - PathWidth(l));
    if l.line == [] {
      assert s == l.path + pad + [Space, Space] + l.message;
      UnnumberedParts(l.path, pad, l.message);
    } else {
      assert s == l.func + [Space] + l.path + [Colon] + l.line + pad + [Space] + l.message;
      NumberedParts(l.func, l.path, l.line, pad, l.message);
    }
  }

  /** Where the parts of `f + " " + p + ":" + n + pad + " " + m` sit, for a padding of spaces. */
  lemma NumberedParts(f: Bytes, p: Bytes, n: Bytes, pad: Bytes, m: Bytes)
    requires forall q :: 0 <= q < |pad| ==> pad[q] == Space
    ensures var s, i := f + [Space] + p + [Colon] + n + pad + [Space] + m, |f| + 1;
            var k := i + |p| + 1 + |n|;
            && |s| == k + |pad| + 1 + |m|
            && s[..i] == f + [Space] && s[i..i + |p|] == p && s[i + |p|] == Colon && s[i + |p| + 1..k] == n
            && (forall q :: k <= q <= k + |pad| ==> s[q] == Space)
            && s[k + |pad| + 1..] == m
  {
    var tail := n + pad + [Space] + m;
    var s := f + [Space] + p + [Colon] + tail;
    assert s == f + [Space] + p + [Colon] + n + pad + [Space] + m;
    DelimitedParts(f, Space, p, Colon, tail);
    var k := |f| + 1 + |p| + 1 + |n|;
    assert s[k..] == pad + [Space] + m;
    assert s[..|f| + 1] == f + [Space];
    forall q | k <= q <= k + |pad|
      ensures s[q] == Space
    {
      assert s[q] == s[k..][q - k];
    }
  }

  /** Where the parts of `p + pad + "  " + m` sit, for a padding of spaces. */
  lemma UnnumberedParts(p: Bytes, pad: Bytes, m: Bytes)
    requires forall q :: 0 <= q < |pad| ==> pad[q] == Space
    ensures var s := p + pad + [Space, Space] + m;
            && |s| == |p| + |pad| + 2 + |m|
            && s[..|p|] == p
            && (forall q :: |p| <= q < |p| + |pad| + 2 ==> s[q] == Space)
            && s[|p| + |pad| + 2..] == m
  {
    var s := p + pad + [Space, Space] + m;
    assert s == p + (pad + [Space, Space] + m);
  }

  /** The printed lines, each followed by a newline. */
  function RenderLines(lines: seq<LinkLine>, offset: nat, styles: Styles): (r: seq<Bytes>)
    requires forall i :: 0 <= i < |lines| ==> PathWidth(lines[i]) <= offset
    ensures |r| == |lines|
    ensures forall i :: 0 <= i < |lines| ==> r[i] == RenderLine(lines[i], offset, styles) + [Newline]
  {
    seq(|lines|, i requires 0 <= i < |lines| => RenderLine(lines[i], offset, styles) + [Newline])
  }

  /** What the reporter writes: the banner line, then one line per chain element. */
  function ReportLines(e: ReportErr, pathFormatter: Bytes -> Bytes, banner: Bytes -> Bytes, styles: Styles)
    : (r: seq<Bytes>)
    ensures |r| == 1 + |IterChain(Some(e))|
    ensures r[0] == banner(FatalError) + [Newline]
  {
    var lines := BuildLines(e, pathFormatter);
    [banner(FatalError) + [Newline]] + RenderLines(lines, Offset(lines), styles)
  }

  /**
   The reporter `NewDefaultReporter(pathFormatter)` returns, applied to `e`:
   the banner goes out first; the first failed write ends the report with its error.
   */
  method Report(e: ReportErr, pathFormatter: Bytes -> Bytes, banner: Bytes -> Bytes, styles: Styles,
                fault: nat -> Option<Bytes>) returns (out: Outcome)
    ensures out == Emit(ReportLines(e, pathFormatter, banner, styles), fault)
    ensures fault(0).Some? ==> out == Outcome([], fault(0))
    ensures out.err.None? ==> |out.written| == 1 + |IterChain(Some(e))|
  {
    var lines := BuildLines(e, pathFormatter);
    var offset := MaxPathWidth(lines);
    var rendered := [banner(FatalError) + [Newline]] + RenderLines(lines, offset, styles);
    out := WriteAll(rendered, fault);
  }

  /** The loop computing `offset`. */
  method MaxPathWidth(lines: seq<LinkLine>) returns (offset: nat)
    ensures offset == Offset(lines)
  {
    offset := 0;
    var k := 0;
    while k < |lines|
      invariant 0 <= k <= |lines|
      invariant offset == Offset(lines[..k])
    {
      assert lines[..k + 1][..k] == lines[..k];
      offset := if PathWidth(lines[k]) > offset then PathWidth(lines[k]) else offset;
      k := k + 1;
    }
    assert lines[..k] == lines;
  }

  /** The report writes element `i`'s line, rendered at the common offset, right after the `i` lines before it. */
  lemma WrittenLine(e: ReportErr, pathFormatter: Bytes -> Bytes, banner: Bytes -> Bytes, styles: Styles, i: nat)
    requires i < |Walk(e)|
    ensures var lines := BuildLines(e, pathFormatter);
            ReportLines(e, pathFormatter, banner, styles)[i + 1]
            == RenderLine(lines[i], Offset(lines), styles) + [Newline]
  {
    var lines := BuildLines(e, pathFormatter);
    var rendered := RenderLines(lines, Offset(lines), styles);
    assert ReportLines(e, pathFormatter, banner, styles) == [banner(FatalError) + [Newline]] + rendered;
    AfterFirst(banner(FatalError) + [Newline], rendered, i);
  }

  /** Element `i + 1` of a list with a head is element `i` of the rest. */
  lemma AfterFirst(h: Bytes, rest: seq<Bytes>, i: nat)
    requires i < |rest|
    ensures ([h] + rest)[i + 1] == rest[i]
  {
  }

  /**
   Under plain styling, in a built report every link's message starts at byte
   `offset` and the foreign error's text at `offset - 1`.
   */
  lemma MessagesAtOffset(e: ReportErr, pathFormatter: Bytes -> Bytes, i: nat)
    requires i < |Walk(e)|
    ensures var lines := BuildLines(e, pathFormatter);
            var offset := Offset(lines);
            var s := RenderLine(lines[i], offset, Plain);
            && (Walk(e)[i].Node? ==> offset <= |s| && s[offset..] == lines[i].message)
            && (Walk(e)[i].Foreign? ==> 1 <= offset <= |s| + 1 && s[offset - 1..] == lines[i].message)
  {
    var lines := BuildLines(e, pathFormatter);
    var l := lines[i];
    var offset := Offset(lines);
    assert PathWidth(l) <= offset;
    LineContents(e, pathFormatter, i);
    RenderLineLayout(l, offset);
  }

  /** The byte where a plain-rendered line's message begins: `offset`, or `|function| + 1` earlier without a line number. */
  function MessageStart(l: LinkLine, offset: nat): int
  {
    if l.line != [] then offset else offset - 1 - |l.func|
  }

  /** A plain-rendered line holds its message from `MessageStart` to its end. */
  lemma MessageAt(l: LinkLine, offset: nat)
    requires PathWidth(l) <= offset
    ensures HoldsFrom(RenderLine(l, offset, Plain), MessageStart(l, offset), l.message)
  {
    RenderLineLayout(l, offset);
  }

  /** In a report, element `i`'s message starts at `offset` for a link and at `offset - 1` for the foreign error. */
  lemma MessageStartOfElement(e: ReportErr, pathFormatter: Bytes -> Bytes, i: nat)
    requires i < |Walk(e)|
    ensures var lines := BuildLines(e, pathFormatter);
            && (Walk(e)[i].Node? ==> MessageStart(lines[i], Offset(lines)) == Offset(lines))
            && (Walk(e)[i].Foreign? ==> MessageStart(lines[i], Offset(lines)) == Offset(lines) - 1)
  {
    LineContents(e, pathFormatter, i);
  }

  /**
   The same in what the report writes: after the banner, the line for
   element `i` holds its message and the newline from `MessageStart` on,
   which `MessageStartOfElement` places at `offset` for a link and at
   `offset - 1` for the foreign error.
   */
  lemma WrittenMessageAt(e: ReportErr, pathFormatter: Bytes -> Bytes, banner: Bytes -> Bytes, i: nat)
    requires i < |Walk(e)|
    ensures var lines := BuildLines(e, pathFormatter);
            HoldsFrom(ReportLines(e, pathFormatter, banner, Plain)[i + 1],
                      MessageStart(lines[i], Offset(lines)), lines[i].message + [Newline])
  {
    var lines := BuildLines(e, pathFormatter);
    var l, offset := lines[i], Offset(lines);
    assert PathWidth(l) <= offset;
    var s := RenderLine(l, offset, Plain);
    MessageAt(l, offset);
    WrittenLine(e, pathFormatter, banner, Plain, i);
    NewlineAfter(ReportLines(e, pathFormatter, banner, Plain)[i + 1], s, MessageStart(l, offset), l.message);
  }

  /**
   Under plain styling, the line the report writes for a link holds its
   message and the newline from byte `offset` on, and the line for the
   foreign error its text and the newline from byte `offset - 1` on.
   */
  lemma WrittenMessagesAtOffset(e: ReportErr, pathFormatter: Bytes -> Bytes, banner: Bytes -> Bytes, i: nat)
    requires i < |Walk(e)|
    ensures var lines := BuildLines(e, pathFormatter);
            var w := ReportLines(e, pathFormatter, banner, Plain)[i + 1];
            && (Walk(e)[i].Node? ==> HoldsFrom(w, Offset(lines), lines[i].message + [Newline]))
            && (Walk(e)[i].Foreign? ==> HoldsFrom(w, Offset(lines) - 1, lines[i].message + [Newline]))
  {
    var lines := BuildLines(e, pathFormatter);
    var w, k := ReportLines(e, pathFormatter, banner, Plain)[i + 1], MessageStart(lines[i], Offset(lines));
    WrittenMessageAt(e, pathFormatter, banner, i);
    MessageStartOfElement(e, pathFormatter, i);
    SameStart(w, k, if Walk(e)[i].Node? then Offset(lines) else Offset(lines) - 1, lines[i].message + [Newline]);
  }

  /** `HoldsFrom` depends on the start only through its value. */
  lemma SameStart(w: Bytes, k: int, j: int, m: Bytes)
    requires HoldsFrom(w, k, m) && k == j
    ensures HoldsFrom(w, j, m)
  {
  }

  /** `w` holds `m` from byte `k` to its end. */
  predicate HoldsFrom(w: Bytes, k: int, m: Bytes)
  {
    0 <= k <= |w| && w[k..] == m
  }

  /** A line holding `m` from byte `k` on, once its newline is added, holds `m` and the newline from there. */
  lemma NewlineAfter(w: Bytes, s: Bytes, k: int, m: Bytes)
    requires w == s + [Newline] && HoldsFrom(s, k, m)
    ensures HoldsFrom(w, k, m + [Newline])
  {
  }
}

=== FILE: scenarios.dfy ===
/**
 The cases of `chained_error_test.go`, with frames from a serial frame source
 (the n-th captured frame is file "file-n", line n), plus the three-link scenario.
 */
module Scenarios {
  import opened Bytes
  import opened Wrappers
  import opened Chains
  import opened ChainedError

  /** The n-th frame a serial frame source hands out. */
  function SerialFrame(n: nat): Frame
  {
    Frame([], Str("file-") + Decimal(n), n)
  }

  const Egad: Bytes := Str("egad")
  const OhNoes: Bytes := Str("oh noes")

  /** `TestError`, leaf cases: a terminus link and a foreign error resolve to their own text. */
  lemma ErrorAtLeaf()
    ensures Error(New(Egad, SerialFrame(1))) == Egad
    ensures Error(Foreign(Egad)) == Egad
  {
  }

  /** `TestError`: four passthrough links over a foreign "egad" resolve to "egad". */
  lemma ErrorThroughPassthroughs()
    ensures var c := Chain(Chain(Chain(Chain(Some(Foreign(Egad)), SerialFrame(1)), SerialFrame(2)),
                                 SerialFrame(3)), SerialFrame(4));
            c.Some? && Resolvable(c.value) && Error(c.value) == Egad
  {
    var c1 := Chain(Some(Foreign(Egad)), SerialFrame(1));
    var c2 := Chain(c1, SerialFrame(2));
    var c3 := Chain(c2, SerialFrame(3));
    var c4 := Chain(c3, SerialFrame(4));
  }

  /** `TestError`: the nearest message wins over the foreign text further down. */
  lemma ErrorAtInterstitialMessage()
    ensures var c := Chain(ChainWith(Chain(Some(Foreign(Egad)), SerialFrame(1)), OhNoes, SerialFrame(2)),
                           SerialFrame(3));
            c.Some? && Resolvable(c.value) && Error(c.value) == OhNoes
  {
    var c1 := Chain(Some(Foreign(Egad)), SerialFrame(1));
    var c2 := ChainWith(c1, OhNoes, SerialFrame(2));
    var c3 := Chain(c2, SerialFrame(3));
  }

  /** `TestChain`: `New` records its frame and message; nil propagates through `Chain` and `ChainWith`. */
  lemma NewAndNilCases()
    ensures New(Egad, SerialFrame(1)) == Node(SerialFrame(1), Egad, None)
    ensures Chain(None, SerialFrame(1)) == None
    ensures ChainWith(None, OhNoes, SerialFrame(1)) == None
  {
  }

  /** `TestChain`: chaining a chain records the second frame over the first link. */
  lemma ChainingAChain()
    ensures Chain(Some(New(Egad, SerialFrame(1))), SerialFrame(2))
            == Some(Node(SerialFrame(2), [], Some(Node(SerialFrame(1), Egad, None))))
  {
  }

  const Boom: Bytes := Str("boom")

  /** Over three passthrough links on a foreign "boom", `Error()` still answers "boom". */
  lemma ThreeLinksError(f1: Frame, f2: Frame, f3: Frame)
    ensures var c := Chain(Chain(Chain(Some(Foreign(Boom)), f1), f2), f3);
            c.Some? && Resolvable(c.value) && Error(c.value) == Boom
  {
    var c1 := Chain(Some(Foreign(Boom)), f1);
    ChainKeepsError(Foreign(Boom), f1);
    var c2 := Chain(c1, f2);
    ChainKeepsError(c1.value, f2);
    ChainKeepsError(c2.value, f3);
  }

  /** The same chain is walked in four steps, the foreign "boom" last. */
  lemma ThreeLinksWalk(f1: Frame, f2: Frame, f3: Frame)
    ensures var c := Chain(Chain(Chain(Some(Foreign(Boom)), f1), f2), f3);
            c.Some? && Walk(c.value) == [c.value, c.value.next.value, c.value.next.value.next.value, Foreign(Boom)]
  {
    var boom := Foreign(Boom);
    var c1 := Chain(Some(boom), f1);
    var c2 := Chain(c1, f2);
    var n1 := Node(f1, [], Some(boom));
    var n2 := Node(f2, [], Some(n1));
    var n3 := Node(f3, [], Some(n2));
    assert Chain(c2, f3) == Some(n3);
    assert Walk(n1) == [n1, boom];
    assert Walk(n2) == [n2] + Walk(n1);
    assert Walk(n3) == [n3] + Walk(n2);
  }

  /**
   Hence it iterates in four steps and its documented root cause is the leaf,
   while `RootCause` as written gives nil.
   */
  lemma ThreeLinksRootCause(f1: Frame, f2: Frame, f3: Frame)
    ensures var c := Chain(Chain(Chain(Some(Foreign(Boom)), f1), f2), f3);
            && c.Some?
            && |IterChain(c)| == 4
            && RootCauseIntended(c.value) == Foreign(Boom)
            && RootCause(c.value) == None
  {
    ThreeLinksWalk(f1, f2, f3);
  }
}

=== FILE: wrappers.dfy ===
/** Go's nil-able interface values, as an optional value. */
module Wrappers {

  /** `None` stands for a nil `error`; `Some(v)` for a non-nil one. */
  datatype Option<+T> = None | Some(value: T)
}
